=== FILE: README.md ===
# obs-markdown: base64 data URLs and the update decision

The Markdown source of obs-markdown shows its text through a private
browser source. The logic lives in `markdown.c`, and this project models its
three parts:

- **`base64_encode`**, a hand-written encoder for the standard alphabet of
  section 4 of RFC 4648 with `=` padding.
  - Module `Base64` is its pure reference: groups of three bytes become four
    6-bit indices into the 64-character table.
  - `Base64` also has a strict decoder, the partner of the encoder. The
    encoder and decoder are proved inverse in both directions.
  - Module `Base64Encoder` mirrors the C loops step by step:
    - the three conditional reads, which give zero past the end;
    - the `triple` and its four masked table lookups;
    - the four stores;
    - the loop that overwrites the padding;
    - the terminating NUL.

    These loops are proved to produce the reference encoding followed by a
    NUL.
- **`markdown_source_set_browser_settings`** (module `Document`).
  - The page is a fixed script-bearing header, then the HTML fragment that
    md4c's `md_html` makes of the source's `text`, then `</body></html>`.
  - The browser's `url` becomes `data:text/html;base64,` followed by the
    page's encoding.
  - The browser's `css` is copied from the source.
  - Each of these steps has a parser as its partner: `BodyOf` takes a page
    apart and `ParseDataUrl` reads a URL. Each parser is proved to accept
    exactly the outputs of its step.
- **`markdown_source_update`** (module `Update`).
  - The browser is resized only when its width or height differs from the
    requested one.
  - When the browser has a procedure handler, the `setMarkdownHtml` event
    and the `setMarkdownCss` event are both attempted.
  - The URL is rebuilt and the browser is reloaded exactly when there is no
    handler or a delivery fails.
  - The result records every `obs_source_update` and every
    `javascript_event` call, in order.

Inputs and outputs of the model:

- `md_html` is foreign code. It is the parameter `markdown: Bytes -> Bytes`.
- The procedure handler is an input: absent, or present with the outcome of
  each of its two `javascript_event` calls.
- The allocation `bmalloc` in `base64_encode` is a boolean input.
- The heap buffer is a sequence value. The loops update it one position at a
  time.

When a handler exists, both events are sent, and if either fails the page is
also reloaded, so it can receive new content twice (markdown.c:181-206).
`Update.FailedDeliveryAlsoReloads` states this case.

## Model

| member | source | states |
|---|---|---|
| Base64Encoder.EncodeBuffer | markdown.c:20-52 | `*output_length` is `4*((n+2)/3)` even when the allocation fails; the result is absent exactly when `bmalloc` fails; otherwise the buffer is the RFC 4648 encoding of the input followed by a NUL at index `*output_length` |
| Base64Encoder.FillGroups | markdown.c:30-46 | the first loop leaves the first `output_length` characters equal to the encoding with the bytes missing from the last group read as zero; the NUL slot is untouched |
| Base64Encoder.ReadGroup | markdown.c:32-37 | the three reads give the bytes at `i`, `i+1`, `i+2`, or zero past the end; `i` advances by three but never past `input_length` |
| Base64Encoder.LookupGroup | markdown.c:39-45 | the four lookups `encoding_table[(triple >> k*6) & 0x3F]` give four alphabet characters that decode back to exactly the three octets |
| Base64Encoder.ReadAndLookup | markdown.c:32-45 | the reads and lookups of the iteration for group `g` give that group's four characters with missing bytes read as zero, and leave `i` at the start of the next group or at `input_length` |
| Base64Encoder.StoreGroup | markdown.c:42-45 | the four `encoded_data[j++]` stores write positions `j..j+3` in order, advance `j` by four and change nothing else |
| Base64Encoder.OverwritePadding | markdown.c:48-49 | the padding loop writes `=` at exactly the last `mod_table[n % 3]` of the first `output_length` positions and leaves every other position as it was |
| Base64.Sextets | markdown.c:42-45 | each of the four indices `(triple >> k*6) & 0x3F` is below 64, so every table lookup is in bounds |
| Base64.ValueOfLetter | markdown.c:12-17 | the 64 table entries are distinct: looking up the character at index `s` gives back `s` |
| Base64.EncodeGroupInAlphabet | markdown.c:39-45 | every character a group encodes to is one of `A-Z a-z 0-9 + /` |
| Base64.Encode | markdown.c:24 | the encoding of `n` bytes has `4*((n+2)/3)` characters |
| Base64.EncodePadding | markdown.c:18 | the encoding ends in exactly `mod_table[n % 3]` (0, 2 or 1) `=` characters, and every other character is in the alphabet |
| Base64.EncodeAt | markdown.c:30-46 | character `k` of group `g` is sextet `k` of the `g`-th zero-filled 3-byte group, unless it lies in the padding, where it is `=` |
| Base64.PaddedZeroFilled | markdown.c:30-49 | the encoding is the zero-filled group-by-group output with its last `mod_table[n % 3]` characters replaced by `=` |
| Base64.DecodeEncode | markdown.c:30-49 | decoding the encoding of any byte sequence gives that sequence back |
| Base64.EncodeDecode | markdown.c:30-49 | every string the strict decoder accepts is the encoding of what it decodes to |
| Base64.DecodeIffEncode | markdown.c:30-49 | a string decodes to `data` exactly when it is the encoding of `data`, so the encoding is injective |
| Document.Assemble | markdown.c:71-89 | the page is the fixed header, then the fragment, then `</body></html>`, each at its own offsets |
| Document.BodyOfAssemble | markdown.c:71-89 | taking an assembled page apart between its header and footer gives back the fragment |
| Document.BodyOfIffAssemble | markdown.c:71-89 | a page yields a fragment exactly when it is the header, that fragment and the footer, so a page determines its fragment: exactly the bytes between the header and the footer |
| Document.BodyTagBeforeFragment | markdown.c:71-87 | every page has the header's `<body>` tag immediately before the converter's fragment |
| Document.NoBodyTagInFooter | markdown.c:89 | the closing `</body></html>` contains no `<body>` tag at any position |
| Document.FragmentCanRepeatBodyTag | markdown.c:85-88 | the fragment is inserted unsanitised: a fragment that is itself `<body>` puts a second `<body>` into the page, right after the header's |
| Document.DataUrl | markdown.c:91-97 | the URL is `data:text/html;base64,` followed by `4*((len+2)/3)` characters that decode back to the page |
| Document.ParseDataUrlIff | markdown.c:91-97 | a URL carries a page exactly when it is `data:text/html;base64,` followed by that page's encoding |
| Document.DataUrlInjective | markdown.c:91-97 | different pages get different URLs |
| Document.SetBrowserSettings | markdown.c:67-102 | `url` carries the page whose body is the converter's fragment for `text`; `css` is copied verbatim; width and height are untouched |
| Document.SameUrlIffSameFragment | markdown.c:86-98 | two texts give the same `url` exactly when the converter gives them the same fragment |
| Update.HtmlEvent | markdown.c:176-186 | the `setMarkdownHtml` event carries `html`: one space (byte 0x20) followed by the fragment |
| Update.CssEvent | markdown.c:191-196 | the `setMarkdownCss` event carries `css`: the source's css setting, verbatim |
| Update.UpdateCalls | markdown.c:164-206 | the calls made are the resize, then the events, then the reload, position by position and with nothing else in between |
| Update.Update | markdown.c:160-208 | the geometry ends as requested; `obs_source_update` is called for a resize only when width or height differed; both events are sent whenever a handler exists; a reload happens exactly when the handler is absent or a delivery failed, and then the URL carries the latest page and css; without one, `url` and `css` are unchanged; the calls are exactly the resize (if any), then the two events (if a handler exists), then the reload (if any), in that order |
| Update.UpdateDeliversLatest | markdown.c:179-206 | after any update the latest text and css reach the page, either through the rebuilt URL or through two delivered events |
| Update.QuietUpdate | markdown.c:164-206 | with unchanged geometry and both deliveries succeeding, the browser's settings stay exactly as they were and `obs_source_update` is never called |
| Update.SecondUpdateNeverResizes | markdown.c:164-173 | a second update with the same settings never resizes; it calls `obs_source_update` only to reload |
| Update.FailedDeliveryAlsoReloads | markdown.c:181-206 | when a handler exists but a delivery fails, the last three calls are the html event, the css event and then a reload with the latest page |
| Update.AbsentHandlerAlwaysReloads | markdown.c:200-206 | without a procedure handler no event is sent and every update reloads with the rebuilt settings |

## Left out

- The OBS host lifecycle is left out: `markdown_source_create`, `markdown_source_destroy`, the width and height getters, `video_render`, `enum_sources`, module load and unload, and the `obs_source_info` table (markdown.c:104-158, 244-276). These are reference counting and host callbacks, with no logic to state. Because `create` calls `markdown_source_set_browser_settings`, the model of that function covers the first page.
- The properties UI and the defaults (markdown.c:210-242) are widget construction. This includes the width and height range 1..8192, the default 800x600 and the default css. Width and height are modelled as unbounded integers.
- The internals of md4c's `md_html` and the callback `markdown_source_add_html` (markdown.c:60-65) are foreign code. The converter is the parameter `markdown`. Its return code is ignored in the source and is not modelled.
- The `(MD_SIZE)strlen` cast of the text length is not modelled, because the converter is opaque.
- `dstr` string handling, `bfree`, and the `obs_data` JSON and calldata marshalling (markdown.c:182-199) are foreign library code. A `JsEvent` keeps only the event name and the one key and value of its JSON object. The JSON escaping is not modelled.
- Document.Assemble: the fragment is not sanitised, because `md_html` runs without `MD_FLAG_NOHTML` (markdown.c:87-88) and passes raw HTML through. The model therefore does not promise that the page has exactly one `<body>` or exactly one of each listener registration. Only the header's own `<body>`, directly before the fragment, and its absence from the footer are proved; that `<body>` occurs only once inside the header itself is a fact about the literal and is not proved.
- Document.SetBrowserSettings: uses the reference encoding, so it always succeeds. In the source, the NULL that `base64_encode` returns when allocation fails is not checked before `dstr_cat`. What the URL then holds depends on `dstr`, which is not part of this model.
- Base64Encoder.EncodeBuffer: does not model `size_t` wrap-around of `4*((n+2)/3)` or of the allocation size `+ 1`. No page has a length that comes near `SIZE_MAX / 4`.
- The runtime behaviour of the header's JavaScript is not modelled. The header is an opaque string constant of exact content. The listeners' semantics in the browser are not modelled, for example whether `obsCSS` is defined when the css listener runs.
- The decoder exists only in this model. The source has no decoder. The strict decoder of section 3.5 of RFC 4648 is the encoder's partner, used to state round trips.
- File polling, background threads and colour-or-font-to-CSS generation do not occur in `markdown.c`, so they are not modelled.

=== FILE: base64.dfy ===
/**
  Base64 as defined in section 4 of RFC 4648 ("Base 64 Encoding"): the
  standard 64-character alphabet with `=` padding.

  `Encode` is a reference definition written group by group, the way the RFC
  describes it: every 3 input bytes become a 24-bit group that is split into
  four 6-bit indices into the alphabet, and a final group of 1 or 2 bytes
  gives 2 or 3 characters followed by `==` or `=`.  `Decode` is the matching
  strict decoder.  The buffer-filling loop of `base64_encode` in markdown.c
  is modelled in module `Base64Encoder` and proved equal to `Encode`.

  Bytes are `bv8`, and the 24-bit group is a `bv32` built with the same
  shifts, additions and `& 0x3F` masks as the C code.
 */
module Base64 {
  import opened Wrappers

  type byte = bv8

  /** `count` consecutive characters starting at `first`. */
  function CharRange(first: char, count: nat): (s: seq<char>)
    requires first as int + count <= 0xD800
    ensures |s| == count
    ensures forall i :: 0 <= i < count ==> s[i] as int == first as int + i
  {
    seq(count, i requires 0 <= i < count => (first as int + i) as char)
  }

  /** `encoding_table`: 'A'..'Z', 'a'..'z', '0'..'9', '+', '/'. */
  const Alphabet: seq<char> :=
    CharRange('A', 26) + CharRange('a', 26) + CharRange('0', 10) + ['+', '/']

  /** The padding character. */
  const Pad: char := '='

  /** `mod_table`: how many trailing `=` an input of length n gets, indexed by n % 3. */
  const ModTable: seq<nat> := [0, 2, 1]

  /** `*output_length` of `base64_encode`. */
  function OutputLength(n: nat): nat {
    4 * ((n + 2) / 3)
  }

  function PadCount(n: nat): nat {
    ModTable[n % 3]
  }

  lemma AlphabetShape()
    ensures |Alphabet| == 64
    ensures forall i :: 0 <= i < 26 ==> Alphabet[i] as int == 'A' as int + i
    ensures forall i :: 26 <= i < 52 ==> Alphabet[i] as int == 'a' as int + i - 26
    ensures forall i :: 52 <= i < 62 ==> Alphabet[i] as int == '0' as int + i - 52
    ensures Alphabet[62] == '+' && Alphabet[63] == '/'
  {
    var upper, lower, digits := CharRange('A', 26), CharRange('a', 26), CharRange('0', 10);
    assert Alphabet == upper + lower + digits + ['+', '/'];
    forall i | 26 <= i < 52 ensures Alphabet[i] == lower[i - 26] {}
    forall i | 52 <= i < 62 ensures Alphabet[i] == digits[i - 52] {}
  }

  /** No character appears twice in the table. */
  lemma AlphabetDistinct()
    ensures forall i, j :: 0 <= i < j < |Alphabet| ==> Alphabet[i] != Alphabet[j]
  {
    AlphabetShape();
  }

  lemma PadNotInAlphabet()
    ensures Pad !in Alphabet
  {
    AlphabetShape();
  }

  /** The table entry for a 6-bit index: `encoding_table[index]`. */
  function Letter(s: bv32): char
    requires s < 64
  {
    AlphabetShape();
    Alphabet[s as int]
  }

  lemma LetterInjective(s: bv32, t: bv32)
    requires s < 64 && t < 64 && Letter(s) == Letter(t)
    ensures s == t
  {
    AlphabetDistinct();
    assert s as int == t as int;
  }

  /** The first table index at or after `from` whose entry is `c`: a
      search of the alphabet in table order. */
  function IndexFrom(c: char, from: bv32): (v: Option<bv32>)
    requires from <= 64
    ensures v.Some? ==> from <= v.value < 64 && Letter(v.value) == c
    decreases 64 - from as int
  {
    if from == 64 then None
    else if Letter(from) == c then Some(from)
    else IndexFrom(c, from + 1)
  }

  /** The 6-bit value of an alphabet character; None for any other character
      (the padding character included). */
  function Value(c: char): (v: Option<bv32>)
    ensures v.Some? ==> v.value < 64 && Letter(v.value) == c
  {
    IndexFrom(c, 0)
  }

  /** The search finds every index whose entry is `c`, since no other index
      holds the same character. */
  lemma {:induction false} IndexFromFinds(c: char, from: bv32, s: bv32)
    requires from <= s < 64 && Letter(s) == c
    ensures IndexFrom(c, from) == Some(s)
    decreases 64 - from as int
  {
    if Letter(from) == c {
      LetterInjective(from, s);
    } else {
      IndexFromFinds(c, from + 1, s);
    }
  }

  /** Decoding a table entry gives back its index. */
  lemma ValueOfLetter(s: bv32)
    requires s < 64
    ensures Value(Letter(s)) == Some(s)
  {
    IndexFromFinds(Letter(s), 0, s);
  }

  /** `triple` of the C loop: (octet_a << 0x10) + (octet_b << 0x08) + octet_c. */
  function Triple(a: byte, b: byte, c: byte): bv32 {
    ((a as bv32) << 0x10) + ((b as bv32) << 0x08) + (c as bv32)
  }

  /** The four table indices `(triple >> k*6) & 0x3F`, most significant first. */
  function Sextets(t: bv32): (s: seq<bv32>)
    ensures |s| == 4
    ensures forall k :: 0 <= k < 4 ==> s[k] < 64
  {
    [(t >> 18) & 0x3F, (t >> 12) & 0x3F, (t >> 6) & 0x3F, t & 0x3F]
  }

  /** The four characters one 3-byte group encodes to. */
  function EncodeGroup(a: byte, b: byte, c: byte): (q: seq<char>)
    ensures |q| == 4
  {
    var s := Sextets(Triple(a, b, c));
    [Letter(s[0]), Letter(s[1]), Letter(s[2]), Letter(s[3])]
  }

  /** Every character a group encodes to is in the alphabet. */
  lemma EncodeGroupInAlphabet(a: byte, b: byte, c: byte)
    ensures forall k :: 0 <= k < 4 ==> EncodeGroup(a, b, c)[k] in Alphabet
  {
    AlphabetShape();
  }

  /** Reference encoder, group by group as in section 4 of RFC 4648. */
  function Encode(data: seq<byte>): (r: seq<char>)
    ensures |r| == OutputLength(|data|)
    decreases |data|
  {
    if |data| == 0 then []
    else if |data| == 1 then EncodeGroup(data[0], 0, 0)[..2] + [Pad, Pad]
    else if |data| == 2 then EncodeGroup(data[0], data[1], 0)[..3] + [Pad]
    else EncodeGroup(data[0], data[1], data[2]) + Encode(data[3..])
  }

  /** Reassembles a 24-bit group from four 6-bit indices. */
  function Join(w: bv32, x: bv32, y: bv32, z: bv32): bv32 {
    (w << 18) | (x << 12) | (y << 6) | z
  }

  /** The three bytes of a 24-bit group, most significant first. */
  function Octets(t: bv32): seq<byte> {
    [((t >> 16) & 0xFF) as bv8, ((t >> 8) & 0xFF) as bv8, (t & 0xFF) as bv8]
  }

  /** Decodes four alphabet characters to three bytes. */
  function DecodeQuad(q: seq<char>): Option<seq<byte>>
    requires |q| == 4
  {
    var w, x, y, z := Value(q[0]), Value(q[1]), Value(q[2]), Value(q[3]);
    if w.Some? && x.Some? && y.Some? && z.Some? then
      Some(Octets(Join(w.value, x.value, y.value, z.value)))
    else None
  }

  /** Decodes the last group, which may end in `==` (one byte) or `=` (two
      bytes).  The bits a padded group does not use must be zero (section 3.5
      of RFC 4648 allows a decoder to insist on this), which makes the
      encoding of each byte sequence unique. */
  function DecodeFinal(q: seq<char>): Option<seq<byte>>
    requires |q| == 4
  {
    var w, x, y := Value(q[0]), Value(q[1]), Value(q[2]);
    if q[2] == Pad && q[3] == Pad then
      if w.Some? && x.Some? && x.value & 0xF == 0 then
        Some(Octets(Join(w.value, x.value, 0, 0))[..1])
      else None
    else if q[3] == Pad then
      if w.Some? && x.Some? && y.Some? && y.value & 0x3 == 0 then
        Some(Octets(Join(w.value, x.value, y.value, 0))[..2])
      else None
    else DecodeQuad(q)
  }

  /** Strict decoder: the length is a multiple of 4, padding appears only in
      the last group, and every other character is in the alphabet. */
  function Decode(s: seq<char>): Option<seq<byte>>
    decreases |s|
  {
    if |s| == 0 then Some([])
    else if |s| < 4 then None
    else if |s| == 4 then DecodeFinal(s)
    else
      var head, tail := DecodeQuad(s[..4]), Decode(s[4..]);
      if head.Some? && tail.Some? then Some(head.value + tail.value) else None
  }

  // ---------------------------------------------------------------------
  // Bit-level facts about one group.

  lemma GroupRoundTrip(a: byte, b: byte, c: byte)
    ensures var s := Sextets(Triple(a, b, c)); Octets(Join(s[0], s[1], s[2], s[3])) == [a, b, c]
  {}

  lemma SextetRoundTrip(w: bv32, x: bv32, y: bv32, z: bv32)
    requires w < 64 && x < 64 && y < 64 && z < 64
    ensures var o := Octets(Join(w, x, y, z)); Sextets(Triple(o[0], o[1], o[2])) == [w, x, y, z]
  {}

  /** A one-byte group leaves the low 4 bits of its second index zero, and
      two indices are enough to recover the byte. */
  lemma OneByteRoundTrip(a: byte)
    ensures var s := Sextets(Triple(a, 0, 0)); s[1] & 0xF == 0 && Octets(Join(s[0], s[1], 0, 0))[0] == a
  {}

  lemma OneByteSextets(w: bv32, x: bv32)
    requires w < 64 && x < 64 && x & 0xF == 0
    ensures var s := Sextets(Triple(Octets(Join(w, x, 0, 0))[0], 0, 0)); s[0] == w && s[1] == x
  {}

  lemma TwoByteRoundTrip(a: byte, b: byte)
    ensures var s := Sextets(Triple(a, b, 0));
      s[2] & 0x3 == 0 && Octets(Join(s[0], s[1], s[2], 0))[..2] == [a, b]
  {}

  lemma TwoByteSextets(w: bv32, x: bv32, y: bv32)
    requires w < 64 && x < 64 && y < 64 && y & 0x3 == 0
    ensures var o := Octets(Join(w, x, y, 0)); var s := Sextets(Triple(o[0], o[1], 0));
      s[0] == w && s[1] == x && s[2] == y
  {}

  // ---------------------------------------------------------------------
  // Round trip.

  lemma DecodeGroup(a: byte, b: byte, c: byte)
    ensures DecodeQuad(EncodeGroup(a, b, c)) == Some([a, b, c])
  {
    var s := Sextets(Triple(a, b, c));
    ValueOfLetter(s[0]);
    ValueOfLetter(s[1]);
    ValueOfLetter(s[2]);
    ValueOfLetter(s[3]);
    GroupRoundTrip(a, b, c);
  }

  lemma DecodeOneByte(a: byte)
    ensures Decode(Encode([a])) == Some([a])
  {
    var s := Sextets(Triple(a, 0, 0));
    ValueOfLetter(s[0]);
    ValueOfLetter(s[1]);
    OneByteRoundTrip(a);
    var r := Encode([a]);
    assert r == [Letter(s[0]), Letter(s[1]), Pad, Pad];
    assert Value(r[0]) == Some(s[0]) && Value(r[1]) == Some(s[1]);
    assert Octets(Join(s[0], s[1], 0, 0))[..1] == [a];
    assert Decode(r) == DecodeFinal(r);
  }

  lemma DecodeTwoBytes(a: byte, b: byte)
    ensures Decode(Encode([a, b])) == Some([a, b])
  {
    var s := Sextets(Triple(a, b, 0));
    ValueOfLetter(s[0]);
    ValueOfLetter(s[1]);
    ValueOfLetter(s[2]);
    TwoByteRoundTrip(a, b);
    EncodeGroupInAlphabet(a, b, 0);
    PadNotInAlphabet();
    var r := Encode([a, b]);
    assert r == [Letter(s[0]), Letter(s[1]), Letter(s[2]), Pad];
    assert r[2] != Pad;
  }

  /** Decoding the encoding of any byte sequence gives the sequence back. */
  lemma {:induction false} DecodeEncode(data: seq<byte>)
    ensures Decode(Encode(data)) == Some(data)
    decreases |data|
  {
    if |data| == 1 {
      assert data == [data[0]];
      DecodeOneByte(data[0]);
    } else if |data| == 2 {
      assert data == [data[0], data[1]];
      DecodeTwoBytes(data[0], data[1]);
    } else if |data| == 3 {
      DecodeThreeBytes(data);
    } else if |data| > 3 {
      DecodeEncode(data[3..]);
      DecodeNextGroup(data);
    }
  }

  lemma DecodeThreeBytes(data: seq<byte>)
    requires |data| == 3
    ensures Decode(Encode(data)) == Some(data)
  {
    var g := EncodeGroup(data[0], data[1], data[2]);
    DecodeGroup(data[0], data[1], data[2]);
    EncodeGroupInAlphabet(data[0], data[1], data[2]);
    PadNotInAlphabet();
    assert Encode(data) == g;
    assert g[3] != Pad;
    assert data == [data[0], data[1], data[2]];
  }

  /** The step of DecodeEncode: a full group in front decodes to its three
      bytes in front. */
  lemma DecodeNextGroup(data: seq<byte>)
    requires |data| > 3
    requires Decode(Encode(data[3..])) == Some(data[3..])
    ensures Decode(Encode(data)) == Some(data)
  {
    var a, b, c, tail := data[0], data[1], data[2], data[3..];
    EncodeCons(data);
    DecodeGroup(a, b, c);
    DecodeCons(Encode(data), [a, b, c], tail);
    SplitGroup(data);
  }

  /** Encoding more than three bytes encodes the first group and then the
      rest. */
  lemma EncodeCons(data: seq<byte>)
    requires |data| > 3
    ensures |Encode(data)| > 4
    ensures Encode(data)[..4] == EncodeGroup(data[0], data[1], data[2])
    ensures Encode(data)[4..] == Encode(data[3..])
  {
    var rest := Encode(data[3..]);
    assert |rest| >= 4 by {
      assert (|data[3..]| + 2) / 3 >= 1;
    }
  }

  /** Decoding a text of more than one group decodes the first group and
      then the rest. */
  lemma DecodeCons(s: seq<char>, head: seq<byte>, tail: seq<byte>)
    requires |s| > 4 && DecodeQuad(s[..4]) == Some(head) && Decode(s[4..]) == Some(tail)
    ensures Decode(s) == Some(head + tail)
  {
  }

  lemma SplitGroup(data: seq<byte>)
    requires |data| >= 3
    ensures data == [data[0], data[1], data[2]] + data[3..]
  {
  }

  lemma EncodeOneByte(q: seq<char>)
    requires |q| == 4 && q[2] == Pad && q[3] == Pad && DecodeFinal(q).Some?
    ensures Encode(DecodeFinal(q).value) == q
  {
    var w, x := Value(q[0]).value, Value(q[1]).value;
    OneByteSextets(w, x);
  }

  lemma EncodeTwoBytes(q: seq<char>)
    requires |q| == 4 && q[3] == Pad && q[2] != Pad && DecodeFinal(q).Some?
    ensures Encode(DecodeFinal(q).value) == q
  {
    var w, x, y := Value(q[0]).value, Value(q[1]).value, Value(q[2]).value;
    TwoByteSextets(w, x, y);
  }

  lemma EncodeThreeBytes(q: seq<char>)
    requires |q| == 4 && DecodeQuad(q).Some?
    ensures |DecodeQuad(q).value| == 3
    ensures var d := DecodeQuad(q).value; EncodeGroup(d[0], d[1], d[2]) == q
  {
    var w, x, y, z := Value(q[0]).value, Value(q[1]).value, Value(q[2]).value, Value(q[3]).value;
    SextetRoundTrip(w, x, y, z);
  }

  lemma EncodeFinal(q: seq<char>)
    requires |q| == 4 && DecodeFinal(q).Some?
    ensures Encode(DecodeFinal(q).value) == q
  {
    if q[2] == Pad && q[3] == Pad {
      EncodeOneByte(q);
    } else if q[3] == Pad {
      EncodeTwoBytes(q);
    } else {
      EncodeThreeBytes(q);
      var d := DecodeQuad(q).value;
      assert Encode(d) == EncodeGroup(d[0], d[1], d[2]) + Encode(d[3..]);
      assert d[3..] == [];
    }
  }

  /** Whatever the decoder accepts is the encoding of what it returns. */
  lemma {:induction false} EncodeDecode(s: seq<char>)
    requires Decode(s).Some?
    ensures Encode(Decode(s).value) == s
    decreases |s|
  {
    if |s| == 4 {
      EncodeFinal(s);
    } else if |s| > 4 {
      EncodeThreeBytes(s[..4]);
      var head := DecodeQuad(s[..4]).value;
      var tail := Decode(s[4..]).value;
      EncodeDecode(s[4..]);
      var d := head + tail;
      assert Decode(s).value == d;
      assert d[3..] == tail;
      assert Encode(d) == EncodeGroup(head[0], head[1], head[2]) + Encode(tail);
      assert s == s[..4] + s[4..];
    }
  }

  /** The decoder accepts exactly the encodings, so `Encode` is injective and
      `Decode` is its inverse. */
  lemma DecodeIffEncode(s: seq<char>, data: seq<byte>)
    ensures Decode(s) == Some(data) <==> s == Encode(data)
  {
    if Decode(s) == Some(data) {
      EncodeDecode(s);
    }
    if s == Encode(data) {
      DecodeEncode(data);
    }
  }

  // ---------------------------------------------------------------------
  // Position by position: zero-filled groups, then padding.

  /** The byte at position i, or 0 past the end (the C loop's `: 0`). */
  function ByteAt(data: seq<byte>, i: nat): byte {
    if i < |data| then data[i] else 0
  }

  /** Group g of the input with missing bytes read as zero, encoded without
      padding: the four characters the C loop writes on its g-th iteration. */
  function ZeroFilledGroup(data: seq<byte>, g: nat): (q: seq<char>)
    ensures |q| == 4
  {
    EncodeGroup(ByteAt(data, 3 * g), ByteAt(data, 3 * g + 1), ByteAt(data, 3 * g + 2))
  }

  /** The whole zero-filled output, before padding is written over its end. */
  function ZeroFilled(data: seq<byte>): (r: seq<char>)
    ensures |r| == OutputLength(|data|)
  {
    seq(OutputLength(|data|), p requires 0 <= p => ZeroFilledGroup(data, p / 4)[p % 4])
  }

  lemma ShiftGroup(data: seq<byte>, g: nat)
    requires |data| >= 3 && g >= 1
    ensures ZeroFilledGroup(data[3..], g - 1) == ZeroFilledGroup(data, g)
  {
    var rest := data[3..];
    assert ByteAt(rest, 3 * (g - 1)) == ByteAt(data, 3 * g);
    assert ByteAt(rest, 3 * (g - 1) + 1) == ByteAt(data, 3 * g + 1);
    assert ByteAt(rest, 3 * (g - 1) + 2) == ByteAt(data, 3 * g + 2);
  }

  lemma EncodeAtOneByte(data: seq<byte>, k: nat)
    requires |data| == 1 && k < 4
    ensures Encode(data)[k] ==
      if k >= OutputLength(|data|) - PadCount(|data|) then Pad
      else ZeroFilledGroup(data, 0)[k]
  {
    var q := EncodeGroup(data[0], 0, 0);
    assert ZeroFilledGroup(data, 0) == q;
    assert Encode(data) == q[..2] + [Pad, Pad];
    assert OutputLength(1) == 4 && PadCount(1) == 2;
  }

  lemma EncodeAtTwoBytes(data: seq<byte>, k: nat)
    requires |data| == 2 && k < 4
    ensures Encode(data)[k] ==
      if k >= OutputLength(|data|) - PadCount(|data|) then Pad
      else ZeroFilledGroup(data, 0)[k]
  {
    var q := EncodeGroup(data[0], data[1], 0);
    assert ZeroFilledGroup(data, 0) == q;
    assert Encode(data) == q[..3] + [Pad];
    assert OutputLength(2) == 4 && PadCount(2) == 1;
  }

  lemma EncodeAtFirstGroup(data: seq<byte>, k: nat)
    requires |data| >= 3 && k < 4
    ensures Encode(data)[k] ==
      if k >= OutputLength(|data|) - PadCount(|data|) then Pad
      else ZeroFilledGroup(data, 0)[k]
  {
    var n := |data|;
    var q := EncodeGroup(data[0], data[1], data[2]);
    assert ZeroFilledGroup(data, 0) == q;
    assert Encode(data) == q + Encode(data[3..]);
    FirstGroupUnpadded(n);
  }

  /** With at least three bytes, the first group carries no padding. */
  lemma FirstGroupUnpadded(n: nat)
    requires n >= 3
    ensures OutputLength(n) - PadCount(n) >= 4
  {
    if n > 3 {
      assert (n + 2) / 3 >= 2;
    }
  }

  /** How the output length and the padding count change when a 3-byte
      group is added in front. */
  lemma LengthsShift(n: nat)
    ensures OutputLength(n + 3) == OutputLength(n) + 4
    ensures PadCount(n + 3) == PadCount(n) <= 2
    ensures PadCount(n) <= OutputLength(n)
  {
    assert (n + 3) % 3 == n % 3;
    assert n % 3 != 0 ==> OutputLength(n) >= 4;
  }

  /** Character p of the encoding is `=` in the last PadCount positions and
      otherwise the matching character of the zero-filled group p / 4. */
  lemma {:induction false} EncodeAt(data: seq<byte>, g: nat, k: nat)
    requires k < 4 && 4 * g + k < OutputLength(|data|)
    ensures Encode(data)[4 * g + k] ==
      if 4 * g + k >= OutputLength(|data|) - PadCount(|data|) then Pad
      else ZeroFilledGroup(data, g)[k]
    decreases g
  {
    if g == 0 {
      EncodeAtGroupZero(data, k);
    } else {
      MoreThanOneGroup(|data|, 4 * g + k);
      EncodeAt(data[3..], g - 1, k);
      EncodeAtNextGroup(data, g, k);
    }
  }

  /** A position past the first four exists only for inputs of more than
      three bytes. */
  lemma MoreThanOneGroup(n: nat, p: nat)
    requires 4 <= p < OutputLength(n)
    ensures n > 3
  {
  }

  lemma EncodeAtGroupZero(data: seq<byte>, k: nat)
    requires k < 4 && k < OutputLength(|data|)
    ensures Encode(data)[k] ==
      if k >= OutputLength(|data|) - PadCount(|data|) then Pad
      else ZeroFilledGroup(data, 0)[k]
  {
    if |data| == 1 {
      EncodeAtOneByte(data, k);
    } else if |data| == 2 {
      EncodeAtTwoBytes(data, k);
    } else {
      EncodeAtFirstGroup(data, k);
    }
  }

  /** The step of EncodeAt: position 4 * g + k of the encoding is position
      4 * (g - 1) + k of the encoding of the bytes after the first group. */
  lemma EncodeAtNextGroup(data: seq<byte>, g: nat, k: nat)
    requires |data| >= 3 && g >= 1 && k < 4 && 4 * g + k < OutputLength(|data|)
    requires Encode(data[3..])[4 * (g - 1) + k] ==
      if 4 * (g - 1) + k >= OutputLength(|data[3..]|) - PadCount(|data[3..]|) then Pad
      else ZeroFilledGroup(data[3..], g - 1)[k]
    ensures Encode(data)[4 * g + k] ==
      if 4 * g + k >= OutputLength(|data|) - PadCount(|data|) then Pad
      else ZeroFilledGroup(data, g)[k]
  {
    var n, rest := |data|, data[3..];
    LengthsShift(|rest|);
    var unpadded, restUnpadded := OutputLength(n) - PadCount(n), OutputLength(|rest|) - PadCount(|rest|);
    assert unpadded == restUnpadded + 4;
    assert Encode(data)[4 * g + k] == Encode(rest)[4 * (g - 1) + k];
    ShiftGroup(data, g);
  }

  /** The encoding is the zero-filled output with its last PadCount
      characters replaced by `=`. */
  lemma PaddedZeroFilled(data: seq<byte>)
    ensures PadCount(|data|) <= OutputLength(|data|)
    ensures forall p :: 0 <= p < OutputLength(|data|) ==>
      Encode(data)[p] == if p >= OutputLength(|data|) - PadCount(|data|) then Pad else ZeroFilled(data)[p]
  {
    forall p | 0 <= p < OutputLength(|data|)
      ensures Encode(data)[p] == if p >= OutputLength(|data|) - PadCount(|data|) then Pad else ZeroFilled(data)[p]
    {
      PaddedZeroFilledAt(data, p);
    }
  }

  /** The first `OutputLength(|data|)` positions of `buf` hold the
      zero-filled groups of `data`, four characters per group. */
  ghost predicate GroupsLaidOut(data: seq<byte>, buf: seq<char>) {
    OutputLength(|data|) <= |buf| &&
    forall g, k :: 0 <= g < (|data| + 2) / 3 && 0 <= k < 4 ==> buf[4 * g + k] == ZeroFilledGroup(data, g)[k]
  }

  /** Position p of a buffer laid out group by group. */
  lemma GroupLayoutAt(data: seq<byte>, buf: seq<char>, p: nat)
    requires GroupsLaidOut(data, buf) && p < OutputLength(|data|)
    ensures buf[p] == ZeroFilled(data)[p]
  {
    var g, k := p / 4, p % 4;
    assert p == 4 * g + k && g < (|data| + 2) / 3;
  }

  /** A buffer laid out group by group starts with the zero-filled output. */
  lemma GroupsMakeZeroFilled(data: seq<byte>, buf: seq<char>)
    requires GroupsLaidOut(data, buf)
    ensures buf[..OutputLength(|data|)] == ZeroFilled(data)
  {
    forall p | 0 <= p < OutputLength(|data|)
      ensures buf[p] == ZeroFilled(data)[p]
    {
      GroupLayoutAt(data, buf, p);
    }
  }

  lemma PaddedZeroFilledAt(data: seq<byte>, p: nat)
    requires p < OutputLength(|data|)
    ensures Encode(data)[p] == if p >= OutputLength(|data|) - PadCount(|data|) then Pad else ZeroFilled(data)[p]
  {
    var g, k := p / 4, p % 4;
    assert p == 4 * g + k;
    EncodeAt(data, g, k);
  }

  /** The output ends in exactly `mod_table[n % 3]` padding characters and
      every other character is in the alphabet. */
  lemma EncodePadding(data: seq<byte>)
    ensures PadCount(|data|) <= |Encode(data)|
    ensures forall p :: |Encode(data)| - PadCount(|data|) <= p < |Encode(data)| ==> Encode(data)[p] == Pad
    ensures forall p :: 0 <= p < |Encode(data)| - PadCount(|data|) ==> Encode(data)[p] in Alphabet
  {
    LengthsShift(|data|);
    forall p | 0 <= p < |Encode(data)|
      ensures p >= |Encode(data)| - PadCount(|data|) ==> Encode(data)[p] == Pad
      ensures p < |Encode(data)| - PadCount(|data|) ==> Encode(data)[p] in Alphabet
    {
      EncodePaddingAt(data, p);
    }
  }

  lemma EncodePaddingAt(data: seq<byte>, p: nat)
    requires p < OutputLength(|data|)
    ensures p >= OutputLength(|data|) - PadCount(|data|) ==> Encode(data)[p] == Pad
    ensures p < OutputLength(|data|) - PadCount(|data|) ==> Encode(data)[p] in Alphabet
  {
    var g, k := p / 4, p % 4;
    assert p == 4 * g + k;
    EncodeAt(data, g, k);
    EncodeGroupInAlphabet(ByteAt(data, 3 * g), ByteAt(data, 3 * g + 1), ByteAt(data, 3 * g + 2));
  }
}

=== FILE: base64_encoder.dfy ===
/**
  The buffer-filling loops of `base64_encode` (markdown.c), proved to compute
  the reference encoding of module `Base64`.  The heap buffer `encoded_data`
  is modelled as a sequence value that the loops update position by position.
 */
module Base64Encoder {
  import opened Wrappers
  import opened Base64

  /** One iteration's `triple` and its four table lookups
      `encoding_table[(triple >> k*6) & 0x3F]`, k = 3, 2, 1, 0. */
  method LookupGroup(octetA: byte, octetB: byte, octetC: byte) returns (c0: char, c1: char, c2: char, c3: char)
    ensures [c0, c1, c2, c3] == EncodeGroup(octetA, octetB, octetC)
    ensures DecodeQuad([c0, c1, c2, c3]) == Some([octetA, octetB, octetC])
    ensures forall k :: 0 <= k < 4 ==> [c0, c1, c2, c3][k] in Alphabet
  {
    var triple: bv32 := ((octetA as bv32) << 0x10) + ((octetB as bv32) << 0x08) + (octetC as bv32);
    assert triple == Triple(octetA, octetB, octetC);
    c0 := Letter((triple >> 18) & 0x3F);
    c1 := Letter((triple >> 12) & 0x3F);
    c2 := Letter((triple >> 6) & 0x3F);
    c3 := Letter(triple & 0x3F);
    GroupMeaning(octetA, octetB, octetC, [c0, c1, c2, c3]);
  }

  /** Four characters that encode a group decode back to it and are all in
      the alphabet. */
  lemma GroupMeaning(a: byte, b: byte, c: byte, q: seq<char>)
    requires q == EncodeGroup(a, b, c)
    ensures DecodeQuad(q) == Some([a, b, c])
    ensures forall k :: 0 <= k < 4 ==> q[k] in Alphabet
  {
    DecodeGroup(a, b, c);
    EncodeGroupInAlphabet(a, b, c);
  }

  /** The three reads `i < input_length ? data[i++] : 0` of one iteration:
      bytes past the end read as zero and do not advance `i`. */
  method ReadGroup(data: seq<byte>, i0: nat) returns (octetA: byte, octetB: byte, octetC: byte, i: nat)
    requires i0 <= |data|
    ensures octetA == ByteAt(data, i0) && octetB == ByteAt(data, i0 + 1) && octetC == ByteAt(data, i0 + 2)
    ensures i == if i0 + 3 < |data| then i0 + 3 else |data|
  {
    var n := |data|;
    i := i0;
    octetA := 0;
    if i < n { octetA := data[i]; i := i + 1; }
    octetB := 0;
    if i < n { octetB := data[i]; i := i + 1; }
    octetC := 0;
    if i < n { octetC := data[i]; i := i + 1; }
  }

  /** The four stores `encoded_data[j++] = ...` of one iteration. */
  method StoreGroup(buf0: seq<char>, j0: nat, c0: char, c1: char, c2: char, c3: char)
    returns (buf: seq<char>, j: nat)
    requires j0 + 4 <= |buf0|
    ensures |buf| == |buf0| && j == j0 + 4
    ensures forall k :: 0 <= k < 4 ==> buf[j0 + k] == [c0, c1, c2, c3][k]
    ensures forall p :: 0 <= p < |buf| && !(j0 <= p < j) ==> buf[p] == buf0[p]
  {
    buf, j := buf0, j0;
    buf := buf[j := c0];
    j := j + 1;
    buf := buf[j := c1];
    j := j + 1;
    buf := buf[j := c2];
    j := j + 1;
    buf := buf[j := c3];
    j := j + 1;
  }

  /** One iteration's reads and lookups: the four characters of group `g`
      with missing bytes read as zero, and `i` moved past the group. */
  method ReadAndLookup(data: seq<byte>, i0: nat, ghost g: nat) returns (c0: char, c1: char, c2: char, c3: char, i: nat)
    requires i0 == 3 * g && i0 < |data|
    ensures [c0, c1, c2, c3] == ZeroFilledGroup(data, g)
    ensures i == if 3 * (g + 1) < |data| then 3 * (g + 1) else |data|
  {
    var octetA, octetB, octetC;
    octetA, octetB, octetC, i := ReadGroup(data, i0);
    c0, c1, c2, c3 := LookupGroup(octetA, octetB, octetC);
  }

  /** The first loop of `base64_encode`: one iteration per 3-byte group,
      reading the bytes of a short last group as zero, four characters written
      per iteration.  The buffer's first `outputLength` characters end up as
      the zero-filled encoding; the rest of `buf` is left as it was. */
  method FillGroups(data: seq<byte>, buf0: seq<char>) returns (buf: seq<char>)
    requires |buf0| == OutputLength(|data|) + 1
    ensures |buf| == |buf0|
    ensures buf[..OutputLength(|data|)] == ZeroFilled(data)
    ensures buf[OutputLength(|data|)] == buf0[OutputLength(|data|)]
  {
    var n := |data|;
    ghost var groups := 0;
    buf := buf0;
    var i, j := 0, 0;
    while i < n
      invariant |buf| == |buf0|
      invariant j == 4 * groups && 3 * groups < n + 3
      invariant i == if 3 * groups < n then 3 * groups else n
      invariant forall g, k :: 0 <= g < groups && 0 <= k < 4 ==> buf[4 * g + k] == ZeroFilledGroup(data, g)[k]
      invariant buf[|buf0| - 1] == buf0[|buf0| - 1]
    {
      assert 4 * groups + 4 <= OutputLength(n);
      var c0, c1, c2, c3;
      c0, c1, c2, c3, i := ReadAndLookup(data, i, groups);
      buf, j := StoreGroup(buf, j, c0, c1, c2, c3);
      groups := groups + 1;
    }
    assert j == OutputLength(n);
    assert GroupsLaidOut(data, buf);
    GroupsMakeZeroFilled(data, buf);
  }

  /** The second loop of `base64_encode`: the last `mod_table[n % 3]` of the
      first `outputLength` characters are overwritten with '='; nothing else
      changes. */
  method OverwritePadding(n: nat, buf0: seq<char>) returns (buf: seq<char>)
    requires |buf0| == OutputLength(n) + 1
    ensures |buf| == |buf0|
    ensures forall p :: 0 <= p < OutputLength(n) - PadCount(n) ==> buf[p] == buf0[p]
    ensures forall p :: OutputLength(n) - PadCount(n) <= p < OutputLength(n) ==> buf[p] == Pad
    ensures buf[OutputLength(n)] == buf0[OutputLength(n)]
  {
    var outputLength := 4 * ((n + 2) / 3);
    assert ModTable[n % 3] <= outputLength by {
      assert n % 3 != 0 ==> (n + 2) / 3 >= 1;
    }
    buf := buf0;
    var k := 0;
    while k < ModTable[n % 3]
      invariant |buf| == |buf0|
      invariant k <= ModTable[n % 3]
      invariant forall p :: 0 <= p < outputLength - k ==> buf[p] == buf0[p]
      invariant forall p :: outputLength - k <= p < outputLength ==> buf[p] == Pad
      invariant buf[outputLength] == buf0[outputLength]
    {
      buf := buf[outputLength - 1 - k := Pad];
      k := k + 1;
    }
  }

  /** `base64_encode(data, input_length, &output_length)`.  The allocation
      `bmalloc(*output_length + 1)` is a parameter: when it fails the result is
      None (the C returns NULL) but the output length has already been set.
      On success the buffer holds the encoding followed by a NUL. */
  method EncodeBuffer(data: seq<byte>, allocationSucceeds: bool)
    returns (encoded: Option<seq<char>>, outputLength: nat)
    ensures outputLength == 4 * ((|data| + 2) / 3)
    ensures encoded.Some? <==> allocationSucceeds
    ensures encoded.Some? ==> encoded.value == Encode(data) + ['\0']
  {
    var n := |data|;
    outputLength := 4 * ((n + 2) / 3);
    if !allocationSucceeds {
      return None, outputLength;
    }
    // bmalloc leaves the contents unspecified; any initial value will do.
    var buf := seq(outputLength + 1, _ => '\0');
    buf := FillGroups(data, buf);
    ghost var filled := buf;
    buf := OverwritePadding(n, buf);
    buf := buf[outputLength := '\0'];

    assert buf[..outputLength] == Encode(data) by {
      PaddedZeroFilled(data);
      forall p | 0 <= p < outputLength
        ensures buf[p] == Encode(data)[p]
      {
        if p < outputLength - PadCount(n) {
          assert buf[p] == filled[..outputLength][p];
        }
      }
    }
    assert buf == buf[..outputLength] + ['\0'];
    encoded := Some(buf);
  }
}

=== FILE: document.dfy ===
/**
  The page a Markdown source hands to its private browser source, and the
  `data:` URL that carries it (`markdown_source_set_browser_settings` in
  markdown.c).

  The page is a fixed header (a script that listens for the
  `setMarkdownHtml` and `setMarkdownCss` events, then `<body>`), the HTML
  fragment the Markdown converter produces for the source's text, and the
  closing `</body></html>`.  The URL is `data:text/html;base64,` followed by
  the base64 encoding of the page's bytes.

  The converter (`md_html` of md4c) is foreign code: it is a parameter
  `markdown: Bytes -> Bytes`, the fragment produced for a text.
 */
module Document {
  import opened Wrappers
  import opened Base64

  type Bytes = seq<byte>

  /** The low byte of a character's code. */
  function ByteOf(c: char): (b: byte)
    ensures c as int < 256 ==> b as int == c as int
  {
    (c as int % 256) as byte
  }

  /** The bytes of an ASCII string, as a C string literal stores them. */
  function Ascii(s: string): (b: Bytes)
    ensures |b| == |s|
    ensures forall i :: 0 <= i < |s| && s[i] as int < 256 ==> b[i] as int == s[i] as int
  {
    seq(|s|, i requires 0 <= i < |s| => ByteOf(s[i]))
  }

  /** The page header, with the C line continuations joined and the tabs
      that began each continued line kept: the script, then `<body>`. */
  const HeaderText: string := HeaderScript + BodyTag

  const BodyTag: string := "<body>"

  const HeaderScript: string :=
    "<html><head><script>"
    + "window.addEventListener('setMarkdownHtml', function(event) { "
    + "\tdocument.body.innerHTML = event.detail.html;"
    + "});"
    + "window.addEventListener('setMarkdownCss', function(event) { "
    + "\tif (obsCSS) {"
    + "\t\tobsCSS.innerHTML = event.detail.css;"
    + "\t} else {"
    + "\t\tconst obsCSS = document.createElement('style');"
    + "\t\tobsCSS.id = 'obsBrowserCustomStyle';"
    + "\t\tobsCSS.innerHTML = event.detail.css;"
    + "\t\tdocument.querySelector('head').appendChild(obsCSS);"
    + "\t}"
    + "});"
    + "</script></head>"

  const FooterText: string := "</body></html>"

  const Header: Bytes := Ascii(HeaderText)

  const Footer: Bytes := Ascii(FooterText)

  /** The scheme and media type in front of the encoded page. */
  const UrlPrefix: string := "data:text/html;base64,"

  /** The page for an HTML fragment: header, fragment, footer. */
  function Assemble(fragment: Bytes): (page: Bytes)
    ensures |page| == |Header| + |fragment| + |Footer|
    ensures page[..|Header|] == Header
    ensures page[|Header|..|Header| + |fragment|] == fragment
    ensures page[|Header| + |fragment|..] == Footer
  {
    Header + fragment + Footer
  }

  /** True when `w` occurs in `page` starting at position `p`. */
  predicate OccursAt(page: Bytes, p: int, w: Bytes) {
    0 <= p && p + |w| <= |page| && page[p..p + |w|] == w
  }

  /** Every page has the header's `<body>` tag right before the fragment. */
  lemma BodyTagBeforeFragment(fragment: Bytes)
    ensures OccursAt(Assemble(fragment), |Header| - |BodyTag|, Ascii(BodyTag))
  {
    var page := Assemble(fragment);
    assert HeaderText[|HeaderScript|..] == BodyTag;
    assert page[|Header| - |BodyTag|..|Header|] == Header[|HeaderScript|..];
  }

  /** The footer holds no `<body>` tag. */
  lemma NoBodyTagInFooter(p: int)
    ensures !OccursAt(Footer, p, Ascii(BodyTag))
  {
    FooterBytes();
    BodyTagBytes();
    if 0 <= p && p + |BodyTag| <= |Footer| {
      var w := Footer[p..p + |BodyTag|];
      assert w[0] == Footer[p] && w[1] == Footer[p + 1];
    }
  }

  lemma FooterBytes()
    ensures Footer == [0x3C, 0x2F, 0x62, 0x6F, 0x64, 0x79, 0x3E, 0x3C, 0x2F, 0x68, 0x74, 0x6D, 0x6C, 0x3E]
  {
  }

  lemma BodyTagBytes()
    ensures Ascii(BodyTag) == [0x3C, 0x62, 0x6F, 0x64, 0x79, 0x3E]
  {
  }

  /** The fragment is not sanitised: a fragment that is itself a `<body>`
      tag puts a second one into the page, right after the header's. */
  lemma FragmentCanRepeatBodyTag()
    ensures var page := Assemble(Ascii(BodyTag));
      OccursAt(page, |Header| - |BodyTag|, Ascii(BodyTag))
      && OccursAt(page, |Header|, Ascii(BodyTag))
  {
    BodyTagBeforeFragment(Ascii(BodyTag));
  }

  /** The fragment between the header and the footer of a page; None when
      the page does not start with the header and end with the footer. */
  function BodyOf(page: Bytes): (fragment: Option<Bytes>)
    ensures fragment.Some? ==> |Header| + |fragment.value| + |Footer| == |page|
  {
    if |page| >= |Header| + |Footer|
       && page[..|Header|] == Header
       && page[|page| - |Footer|..] == Footer
    then Some(page[|Header|..|page| - |Footer|])
    else None
  }

  /** Taking a page apart gives back the fragment it was built from. */
  lemma BodyOfAssemble(fragment: Bytes)
    ensures BodyOf(Assemble(fragment)) == Some(fragment)
  {
    var page := Assemble(fragment);
    assert page[|page| - |Footer|..] == Footer;
  }

  /** A page is taken apart into a fragment exactly when it is assembled
      from that fragment. */
  lemma BodyOfIffAssemble(page: Bytes, fragment: Bytes)
    ensures BodyOf(page) == Some(fragment) <==> page == Assemble(fragment)
  {
    if BodyOf(page) == Some(fragment) {
      SplitThree(page, |Header|, |Footer|);
    }
    if page == Assemble(fragment) {
      BodyOfAssemble(fragment);
    }
  }

  lemma SplitThree(s: Bytes, front: nat, back: nat)
    requires front + back <= |s|
    ensures s == s[..front] + s[front..|s| - back] + s[|s| - back..]
  {
  }

  /** The `url` setting for a page. */
  function DataUrl(page: Bytes): (url: string)
    ensures |url| == |UrlPrefix| + OutputLength(|page|)
    ensures url[..|UrlPrefix|] == UrlPrefix
    ensures Decode(url[|UrlPrefix|..]) == Some(page)
  {
    DecodeEncode(page);
    assert (UrlPrefix + Encode(page))[|UrlPrefix|..] == Encode(page);
    UrlPrefix + Encode(page)
  }

  /** The page a `data:text/html;base64,` URL carries; None for any other
      URL or a payload that is not strict base64. */
  function ParseDataUrl(url: string): Option<Bytes> {
    if |url| >= |UrlPrefix| && url[..|UrlPrefix|] == UrlPrefix
    then Decode(url[|UrlPrefix|..])
    else None
  }

  /** A URL carries a page exactly when it is that page's data URL. */
  lemma ParseDataUrlIff(url: string, page: Bytes)
    ensures ParseDataUrl(url) == Some(page) <==> url == DataUrl(page)
  {
    if ParseDataUrl(url) == Some(page) {
      DecodeIffEncode(url[|UrlPrefix|..], page);
      assert url == url[..|UrlPrefix|] + url[|UrlPrefix|..];
    }
    if url == DataUrl(page) {
      assert url[|UrlPrefix|..] == Encode(page);
      DecodeIffEncode(url[|UrlPrefix|..], page);
    }
  }

  /** The settings of the Markdown source that the page depends on:
      `width`, `height`, `text` and `css`. */
  datatype SourceSettings = SourceSettings(width: int, height: int, text: Bytes, css: Bytes)

  /** The settings of the private browser source: its geometry, the `url`
      it shows and the custom `css` it injects. */
  datatype BrowserSettings = BrowserSettings(width: int, height: int, url: string, css: Bytes)

  /** True when the browser's URL carries the page for `fragment` and its
      css is `css`. */
  predicate Shows(browser: BrowserSettings, fragment: Bytes, css: Bytes) {
    ParseDataUrl(browser.url) == Some(Assemble(fragment)) && browser.css == css
  }

  /** `markdown_source_set_browser_settings(md, settings, bs)`: the page for
      the source's text is encoded into `url`, `css` is copied from the
      source, and nothing else in the browser's settings changes. */
  function SetBrowserSettings(markdown: Bytes -> Bytes, settings: SourceSettings, browser: BrowserSettings)
    : (r: BrowserSettings)
    ensures r.width == browser.width && r.height == browser.height
    ensures r.css == settings.css
    ensures ParseDataUrl(r.url).Some? && BodyOf(ParseDataUrl(r.url).value) == Some(markdown(settings.text))
    ensures Shows(r, markdown(settings.text), settings.css)
  {
    var page := Assemble(markdown(settings.text));
    ParseDataUrlIff(DataUrl(page), page);
    BodyOfAssemble(markdown(settings.text));
    browser.(url := DataUrl(page), css := settings.css)
  }

  /** Two texts give the same URL exactly when the converter gives them the
      same fragment: the URL loses nothing of the fragment. */
  lemma SameUrlIffSameFragment(markdown: Bytes -> Bytes, s: SourceSettings, t: SourceSettings, browser: BrowserSettings)
    ensures SetBrowserSettings(markdown, s, browser).url == SetBrowserSettings(markdown, t, browser).url
            <==> markdown(s.text) == markdown(t.text)
  {
    var ps, pt := Assemble(markdown(s.text)), Assemble(markdown(t.text));
    if DataUrl(ps) == DataUrl(pt) {
      DataUrlInjective(ps, pt);
      BodyOfAssemble(markdown(s.text));
      BodyOfAssemble(markdown(t.text));
    }
  }

  /** Different pages have different URLs. */
  lemma DataUrlInjective(p: Bytes, q: Bytes)
    requires DataUrl(p) == DataUrl(q)
    ensures p == q
  {
    ParseDataUrlIff(DataUrl(p), p);
    ParseDataUrlIff(DataUrl(q), q);
  }
}

=== FILE: update.dfy ===
/**
  `markdown_source_update` (markdown.c): what the Markdown source does to its
  private browser source when its own settings change.

  1. The browser is resized, and told to apply its settings, only when the
     requested width or height differs from the browser's current one.
  2. The new HTML fragment and the css are offered to the page as two
     JavaScript events, `setMarkdownHtml` and `setMarkdownCss`, through the
     browser's procedure handler.  Both deliveries are attempted, the second
     even when the first failed.
  3. If there is no procedure handler, or either delivery failed, the data
     URL is rebuilt from the whole page and the browser is told to apply its
     settings again (a reload).

  The procedure handler is an input: absent, or present with the outcome of
  each of the two `javascript_event` calls.
 */
module Update {
  import opened Document

  /** A `javascript_event` call: the event name and the one member of the
      JSON object sent with it. */
  datatype JsEvent = JsEvent(eventName: string, key: string, value: Bytes)

  /** What the Markdown source asks of its browser, in order. */
  datatype Call =
    | SourceUpdate(applied: BrowserSettings)   // obs_source_update(browser, NULL)
    | JavascriptEvent(event: JsEvent)          // proc_handler_call(ph, "javascript_event", ...)

  /** The browser's procedure handler: absent, or present with whether the
      html event and the css event were each delivered. */
  datatype ProcHandler = Absent | Present(htmlDelivered: bool, cssDelivered: bool)

  datatype UpdateResult = UpdateResult(browser: BrowserSettings, calls: seq<Call>, refreshed: bool)

  /** The html the update path offers to the page: the fragment after the
      single space `md->html` is reset to. */
  function HtmlEvent(fragment: Bytes): (e: JsEvent)
    ensures e.eventName == "setMarkdownHtml" && e.key == "html"
    ensures |e.value| == |fragment| + 1 && e.value[0] == 0x20 && e.value[1..] == fragment
  {
    JsEvent("setMarkdownHtml", "html", Ascii(" ") + fragment)
  }

  function CssEvent(css: Bytes): (e: JsEvent)
    ensures e.eventName == "setMarkdownCss" && e.key == "css" && e.value == css
  {
    JsEvent("setMarkdownCss", "css", css)
  }

  /** True when the browser's geometry differs from the requested one. */
  predicate NeedsResize(settings: SourceSettings, browser: BrowserSettings) {
    settings.width != browser.width || settings.height != browser.height
  }

  /** True when a reload is needed: no handler, or a delivery failed. */
  predicate NeedsRefresh(handler: ProcHandler) {
    handler.Absent? || !handler.htmlDelivered || !handler.cssDelivered
  }

  /** The settings applied by the calls, in order. */
  function Applied(calls: seq<Call>): (r: seq<BrowserSettings>)
    ensures |r| <= |calls|
  {
    if calls == [] then []
    else (if calls[0].SourceUpdate? then [calls[0].applied] else []) + Applied(calls[1..])
  }

  /** The JavaScript events sent by the calls, in order. */
  function Events(calls: seq<Call>): (r: seq<JsEvent>)
    ensures |r| <= |calls|
  {
    if calls == [] then []
    else (if calls[0].JavascriptEvent? then [calls[0].event] else []) + Events(calls[1..])
  }

  lemma {:induction false} AppliedEventsAppend(a: seq<Call>, b: seq<Call>)
    ensures Applied(a + b) == Applied(a) + Applied(b)
    ensures Events(a + b) == Events(a) + Events(b)
    decreases |a|
  {
    if a != [] {
      assert (a + b)[1..] == a[1..] + b;
      AppliedEventsAppend(a[1..], b);
    } else {
      assert a + b == b;
    }
  }

  /** One `obs_source_update` per entry of `applied` (none or one). */
  function SourceUpdates(applied: seq<BrowserSettings>): (calls: seq<Call>)
    requires |applied| <= 1
    ensures |calls| == |applied|
    ensures forall i :: 0 <= i < |applied| ==> calls[i] == SourceUpdate(applied[i])
    ensures Applied(calls) == applied && Events(calls) == []
  {
    if applied == [] then [] else [SourceUpdate(applied[0])]
  }

  /** One `javascript_event` call per event, in order. */
  function EventCalls(events: seq<JsEvent>): (calls: seq<Call>)
    ensures |calls| == |events|
    ensures forall i :: 0 <= i < |events| ==> calls[i] == JavascriptEvent(events[i])
    ensures Applied(calls) == [] && Events(calls) == events
  {
    var calls := seq(|events|, i requires 0 <= i < |events| => JavascriptEvent(events[i]));
    EventCallsOnly(events, calls);
    calls
  }

  /** The calls of an update, in order: the resize, the two events, the
      reload. */
  function UpdateCalls(resize: seq<BrowserSettings>, events: seq<JsEvent>, reload: seq<BrowserSettings>): (calls: seq<Call>)
    requires |resize| <= 1 && |reload| <= 1
    ensures Applied(calls) == resize + reload
    ensures Events(calls) == events
    ensures |calls| == |resize| + |events| + |reload|
    ensures forall i :: 0 <= i < |resize| ==> calls[i] == SourceUpdate(resize[i])
    ensures forall i :: 0 <= i < |events| ==> calls[|resize| + i] == JavascriptEvent(events[i])
    ensures forall i :: 0 <= i < |reload| ==> calls[|resize| + |events| + i] == SourceUpdate(reload[i])
  {
    var a, b, c := SourceUpdates(resize), EventCalls(events), SourceUpdates(reload);
    CallsConcat(a, b, c);
    a + b + c
  }

  /** The applied settings, the events and the positions of a three-part
      call list. */
  lemma CallsConcat(a: seq<Call>, b: seq<Call>, c: seq<Call>)
    ensures Applied(a + b + c) == Applied(a) + Applied(b) + Applied(c)
    ensures Events(a + b + c) == Events(a) + Events(b) + Events(c)
    ensures |a + b + c| == |a| + |b| + |c|
    ensures forall i :: 0 <= i < |a| ==> (a + b + c)[i] == a[i]
    ensures forall i :: 0 <= i < |b| ==> (a + b + c)[|a| + i] == b[i]
    ensures forall i :: 0 <= i < |c| ==> (a + b + c)[|a| + |b| + i] == c[i]
  {
    AppliedEventsAppend(a, b);
    AppliedEventsAppend(a + b, c);
    forall i | 0 <= i < |c|
      ensures (a + b + c)[|a| + |b| + i] == c[i]
    {
      assert |a + b| == |a| + |b|;
    }
  }

  lemma {:induction false} EventCallsOnly(events: seq<JsEvent>, calls: seq<Call>)
    requires |calls| == |events|
    requires forall i :: 0 <= i < |events| ==> calls[i] == JavascriptEvent(events[i])
    ensures Applied(calls) == [] && Events(calls) == events
    decreases |events|
  {
    if events != [] {
      EventCallsOnly(events[1..], calls[1..]);
    }
  }

  /** The settings the resize step applies: none, or the browser's own with
      the requested width and height. */
  function ResizeStep(settings: SourceSettings, bs: BrowserSettings): (applied: seq<BrowserSettings>)
    ensures |applied| <= 1
    ensures applied != [] <==> NeedsResize(settings, bs)
  {
    if NeedsResize(settings, bs) then [bs.(width := settings.width, height := settings.height)] else []
  }

  /** The events offered to the page: both of them when there is a handler. */
  function OfferedEvents(markdown: Bytes -> Bytes, settings: SourceSettings, handler: ProcHandler): (events: seq<JsEvent>)
    ensures |events| == if handler.Present? then 2 else 0
  {
    if handler.Present? then [HtmlEvent(markdown(settings.text)), CssEvent(settings.css)] else []
  }

  /** `markdown_source_update(md, settings)` with `bs` the browser's current
      settings and `handler` its procedure handler. */
  function Update(markdown: Bytes -> Bytes, settings: SourceSettings, bs: BrowserSettings, handler: ProcHandler)
    : (r: UpdateResult)
    ensures r.browser.width == settings.width && r.browser.height == settings.height
    ensures r.refreshed <==> NeedsRefresh(handler)
    ensures Applied(r.calls) == ResizeStep(settings, bs) + (if r.refreshed then [r.browser] else [])
    ensures Events(r.calls) == OfferedEvents(markdown, settings, handler)
    ensures r.refreshed ==> Shows(r.browser, markdown(settings.text), settings.css)
    ensures !r.refreshed ==> r.browser.url == bs.url && r.browser.css == bs.css
    ensures r.calls == UpdateCalls(ResizeStep(settings, bs), OfferedEvents(markdown, settings, handler),
                                   if r.refreshed then [r.browser] else [])
  {
    var resize := ResizeStep(settings, bs);
    var browser := if resize != [] then resize[0] else bs;
    var events := OfferedEvents(markdown, settings, handler);
    var refresh := NeedsRefresh(handler);
    var reloaded := if refresh then SetBrowserSettings(markdown, settings, browser) else browser;
    var reload := if refresh then [reloaded] else [];
    UpdateResult(reloaded, UpdateCalls(resize, events, reload), refresh)
  }

  /** After an update the page has the latest text and css one way or the
      other: either the browser was reloaded with the rebuilt URL, or both
      events carrying them were delivered. */
  lemma UpdateDeliversLatest(markdown: Bytes -> Bytes, settings: SourceSettings, bs: BrowserSettings, handler: ProcHandler)
    ensures var r := Update(markdown, settings, bs, handler);
      Shows(r.browser, markdown(settings.text), settings.css)
      || (handler.Present? && handler.htmlDelivered && handler.cssDelivered
          && Events(r.calls) == [HtmlEvent(markdown(settings.text)), CssEvent(settings.css)])
  {
  }

  /** With the geometry unchanged and both events delivered, the browser's
      settings are left exactly as they were and it is never told to apply
      them. */
  lemma QuietUpdate(markdown: Bytes -> Bytes, settings: SourceSettings, bs: BrowserSettings, handler: ProcHandler)
    requires !NeedsResize(settings, bs)
    requires handler == Present(true, true)
    ensures Update(markdown, settings, bs, handler).browser == bs
    ensures Applied(Update(markdown, settings, bs, handler).calls) == []
  {
  }

  /** Updating twice with the same settings resizes at most once: the second
      update finds the geometry already in place. */
  lemma SecondUpdateNeverResizes(markdown: Bytes -> Bytes, settings: SourceSettings, bs: BrowserSettings,
                                 first: ProcHandler, second: ProcHandler)
    ensures var r1 := Update(markdown, settings, bs, first);
      !NeedsResize(settings, r1.browser)
      && Applied(Update(markdown, settings, r1.browser, second).calls) ==
         (if NeedsRefresh(second) then [Update(markdown, settings, r1.browser, second).browser] else [])
  {
  }

  /** A failed delivery is followed by a reload as well: both events are
      sent, and then the browser is told to apply the rebuilt URL, so the
      page may receive the new content twice. */
  lemma FailedDeliveryAlsoReloads(markdown: Bytes -> Bytes, settings: SourceSettings, bs: BrowserSettings, handler: ProcHandler)
    requires handler.Present? && !(handler.htmlDelivered && handler.cssDelivered)
    ensures var r := Update(markdown, settings, bs, handler);
      |Events(r.calls)| == 2 && r.refreshed
      && Applied(r.calls)[|Applied(r.calls)| - 1] == r.browser
      && |r.calls| >= 3
      && r.calls[|r.calls| - 3] == JavascriptEvent(HtmlEvent(markdown(settings.text)))
      && r.calls[|r.calls| - 2] == JavascriptEvent(CssEvent(settings.css))
      && r.calls[|r.calls| - 1] == SourceUpdate(r.browser)
      && Shows(r.browser, markdown(settings.text), settings.css)
  {
    var r := Update(markdown, settings, bs, handler);
    var events := OfferedEvents(markdown, settings, handler);
    assert events[0] == HtmlEvent(markdown(settings.text)) && events[1] == CssEvent(settings.css);
    LastThreeCalls(ResizeStep(settings, bs), events, r.browser);
  }

  /** With two events and a reload, the call list ends in those two events
      and then the reload. */
  lemma LastThreeCalls(resize: seq<BrowserSettings>, events: seq<JsEvent>, reloaded: BrowserSettings)
    requires |resize| <= 1 && |events| == 2
    ensures var calls := UpdateCalls(resize, events, [reloaded]);
      |calls| >= 3
      && calls[|calls| - 3] == JavascriptEvent(events[0])
      && calls[|calls| - 2] == JavascriptEvent(events[1])
      && calls[|calls| - 1] == SourceUpdate(reloaded)
  {
    var calls := UpdateCalls(resize, events, [reloaded]);
    assert |calls| == |resize| + 3;
    assert calls[|resize| + 0] == JavascriptEvent(events[0]);
    assert calls[|resize| + 1] == JavascriptEvent(events[1]);
    assert calls[|resize| + 2 + 0] == SourceUpdate(reloaded);
  }

  /** Without a procedure handler every update reloads, so the browser's URL
      always carries the page for the latest text. */
  lemma AbsentHandlerAlwaysReloads(markdown: Bytes -> Bytes, settings: SourceSettings, bs: BrowserSettings)
    ensures var r := Update(markdown, settings, bs, Absent);
      Events(r.calls) == [] && r.refreshed
      && r.browser == SetBrowserSettings(markdown, settings, bs.(width := settings.width, height := settings.height))
  {
  }
}

=== FILE: wrappers.dfy ===
/** A result that may be missing: a decoder that rejects its input, or an
    allocation that fails. */
module Wrappers {

  datatype Option<+T> = None | Some(value: T)
}
